=== FILE: README.md ===
# Responses-to-chat-completions adapter

A Dafny model of the `POST` handler of the responses route. The handler
accepts a "Responses"-style request (structured `input` items, optional
`tools`), forwards it to an Ollama-style chat-completions backend as a flat
`{model, messages, tools, stream: false}` body, and turns the backend's
`choices[0].message` reply back into structured `output` items: one
`function_call` per tool call, then at most one `message` holding the text.
Any throw inside the adapter becomes the generic `{error: 'failed'}` answer
with status 500. Without a configured base URL the handler answers a fixed
configuration error with status 500.

The model works on the values `JSON.parse` produces (module `Js`), so the
JavaScript edge cases of the route are explicit: `body.input || []`,
`item.type === 'message'`, optional chaining in `data.choices?.[0]?.message`,
the truthiness test on `choice?.content`, and the property reads that throw on
`null` or `undefined`.

- `js.dfy` — module `Js`: `Option`, `Result` (a throw is `Failure`), the
  `Json` value type, truthiness, property reads with and without `?.`.
- `flatten.dfy` — module `Flattening`: the request transformation.
- `unflatten.dfy` — module `Unflattening`: the reply transformation, and a
  typed encoding of a backend reply used to state the round trip.
- `route.dfy` — module `Route`: the configuration gate, the composed
  handler, and worked examples.

Inputs that the program reads from its environment are parameters:
the base URL (`process.env.OLLAMA_BASE_URL`) is an `Option<string>`, and the
backend call (`fetch` of `${base}/chat/completions` followed by
`resp.json()`) is a function from the URL and the outgoing body to either the
parsed reply or a throw. Statements about "the backend is not consulted" are
therefore stated as "the answer is the same for every backend".

Behaviour of the code that an adapter of this kind might be expected to
handle differently; the model follows the code:
- The code has no "native backend" path and no structured-output `parse`
  branch; the only path is the chat-completions one.
- The code never checks the HTTP status of the backend's reply. A non-2xx
  reply with a JSON body is un-flattened like any other; for instance one
  without `choices` gives a successful empty `output`.
- The configuration test is truthiness, not presence: a base URL set to the
  empty string counts as unconfigured.
- A tool call whose `function` is missing, an `input` that is truthy but not an
  array, an `input` array holding `null`, a `null` request body and a `null`
  backend reply all throw inside the `try`, so each gives the generic failure.

## Model

| member | source | states |
|---|---|---|
| Js.Read | src/app/api/responses/route.ts:19 | a plain property read, as in `body.input` here and `data.choices` on line 38, throws exactly when the value is `null` or `undefined`, and otherwise yields the property |
| Js.Truthy | src/app/api/responses/route.ts:50 | JavaScript truthiness as used by `if` here and by the tests on lines 7, 19 and 41: no nullish value is truthy, every array and object is, a string exactly when non-empty, a boolean exactly when true, a number exactly when non-zero |
| Js.ReadOpt | src/app/api/responses/route.ts:38 | an optional-chained read never throws and yields `undefined` on a nullish value |
| Js.FirstOpt | src/app/api/responses/route.ts:38 | `?.[0]` yields the first array element, first string character or object property "0", and `undefined` for nullish values, empty arrays and strings, numbers and booleans |
| Js.ElementsOrEmpty | src/app/api/responses/route.ts:19 | the empty-array fallback iterated as an array: falsy gives no elements, an array gives its elements, and it throws exactly when the value is truthy but not an array |
| Flattening.MessageIndices | src/app/api/responses/route.ts:20 | the positions selected by the `type === 'message'` filter: all in range, strictly increasing, and a position is selected exactly when its item is a message |
| Flattening.Messages | src/app/api/responses/route.ts:19-21 | filter-then-map throws exactly when some item is `null`; otherwise it yields one flat message per selected position, in order, each built from the item at that position |
| Flattening.Flatten | src/app/api/responses/route.ts:19-33 | fails exactly on a `null` body, a truthy non-array `input` or a `null` item; on success `stream` is false, `model` and `tools` are the caller's unchanged, and a falsy or absent `input` gives no messages |
| Flattening.FlattenSelectsMessages | src/app/api/responses/route.ts:19-21 | for an array `input` without `null`, flattening succeeds and its messages are exactly the message items in their original relative order with `role` and `content` copied; every other item is dropped |
| Flattening.IsMessage | src/app/api/responses/route.ts:20 | the filter test holds exactly for an object whose `type` is the string "message", so only objects pass |
| Flattening.ToFlat | src/app/api/responses/route.ts:21 | the map callback copies `role` and `content` of the item unchanged, absent exactly when the item has no such key |
| Flattening.MessagesOne | src/app/api/responses/route.ts:19-21 | a single non-`null` item flattens to its `{role, content}` when it is a message and to nothing otherwise |
| Flattening.MessagesCount | src/app/api/responses/route.ts:19-21 | the number of flattened messages equals the number of message items counted front to back |
| Unflattening.Choice | src/app/api/responses/route.ts:38 | `data.choices?.[0]?.message` throws only on a `null` reply; it is `undefined` when `choices` is missing, nullish, an empty array, an array whose first element is not an object, or a string, number or boolean; it is the first choice's own `message` field when that choice is an object, and for an object `choices` the `message` of its property "0" |
| Unflattening.ToolCalls | src/app/api/responses/route.ts:41 | `choice?.tool_calls` with the empty-array fallback, walked by the loop: no calls for a nullish choice, a failure exactly when `tool_calls` is truthy but not an array, and otherwise the array's elements |
| Unflattening.Content | src/app/api/responses/route.ts:50 | `choice?.content` is `undefined` for a nullish choice and otherwise the choice's own `content` field unchanged |
| Unflattening.CallItem | src/app/api/responses/route.ts:42-47 | one tool call gives a `function_call` whose `call_id`, `name` and `arguments` are its `id`, `function.name` and `function.arguments` unchanged; it throws exactly when the call is `null` or its `function` is missing or `null` |
| Unflattening.CallItems | src/app/api/responses/route.ts:41-48 | the loop succeeds exactly when every call does, and then yields one item per call, position by position in the backend's order |
| Unflattening.TextItem | src/app/api/responses/route.ts:50-55 | at most one item, present exactly when the content is truthy: a `message` with a single `output_text` block holding the content |
| Unflattening.Unflatten | src/app/api/responses/route.ts:37-56 | fails exactly on a `null` reply, a truthy non-array `tool_calls` or a malformed call; on success the output is the call items in order followed by the text item when the content is truthy |
| Unflattening.UnflattenShape | src/app/api/responses/route.ts:39-55 | in a successful output every item but the last is a `function_call`; a `message` occurs only last, exactly when the content is truthy, with one `output_text` block carrying the content; the `type` tags are "function_call", "message" and "output_text" as on lines 43, 52 and 53 |
| Unflattening.UnflattenCallsPassThrough | src/app/api/responses/route.ts:41-48 | a successful output begins with one `function_call` per tool call, in backend order, with `id`, `function.name` and `function.arguments` copied unchanged |
| Unflattening.UnflattenEmpty | src/app/api/responses/route.ts:38-55 | with no tool calls (`tool_calls` absent, falsy or an empty array) and no truthy content the output is empty, and that is a success |
| Unflattening.UnflattenNoMessage | src/app/api/responses/route.ts:38 | any non-`null` reply, object or not, whose `choices`, first choice or `message` is missing gives a successful empty output |
| Unflattening.MalformedCallFails | src/app/api/responses/route.ts:45-46 | a single `null` tool call or one without `function`, anywhere in the list, makes the whole un-flattening fail |
| Unflattening.ReadBack | src/app/api/responses/route.ts:41-55 | an output of `function_call` items followed by the text item reads back as exactly those calls, and as the content exactly when it is truthy |
| Unflattening.RoundTrip | src/app/api/responses/route.ts:41-55 | for a reply built from typed tool calls and a content value, the calls read back from the output are the original calls in order, and the text read back is the content exactly when it is truthy |
| Route.Configured | src/app/api/responses/route.ts:7 | the gate passes exactly when the base URL is set and, as a JavaScript string, truthy, that is non-empty; an unset URL never passes |
| Route.Endpoint | src/app/api/responses/route.ts:24 | the backend URL is the base URL followed by `/chat/completions` |
| Route.OllamaResponse | src/app/api/responses/route.ts:17-62 | the answer is either status 200 with the un-flattened output of the backend's reply to exactly the flattened body, or the generic `{error: 'failed'}` with status 500; it is 200 exactly when flattening, the backend call and un-flattening all succeed |
| Route.Handle | src/app/api/responses/route.ts:4-15 | without a configured base URL the answer is the fixed configuration error whatever the body and backend; otherwise the adapter answers; the status is always 200 or 500 |
| Route.UnconfiguredIgnoresRequest | src/app/api/responses/route.ts:7-12 | an absent or empty base URL gives the configuration error independently of request and backend |
| Route.FlattenFailureSkipsBackend | src/app/api/responses/route.ts:18-35 | when flattening throws, every backend gives the same generic failure, so the backend is not consulted |
| Route.HandleRoundTrip | src/app/api/responses/route.ts:37-57 | a configured route whose backend replies with given calls and content answers 200 with every call unchanged and in order, and the content exactly when it is truthy |
| Route.MalformedToolCallFails | src/app/api/responses/route.ts:41-60 | a reply holding one tool call without `function` gives the generic failure, never a partial output |
| Route.ExampleFlatten | src/app/api/responses/route.ts:19-33 | the body with model "m" and one user message "hi" flattens to that one message, model "m", no tools, streaming off |
| Route.ExampleTextUnflatten | src/app/api/responses/route.ts:50-55 | the reply with content "hello" and no tool calls un-flattens to one `message` item with text "hello" |
| Route.ExampleTextReply | src/app/api/responses/route.ts:4-57 | the example request against a text-only reply answers 200 with one `message` item "hello" |
| Route.ExampleToolCallUnflatten | src/app/api/responses/route.ts:41-48 | the reply with one tool call `1`/`f`/`{}` and no content un-flattens to exactly that one `function_call` |
| Route.ExampleToolCallReply | src/app/api/responses/route.ts:4-57 | the example request against a tool-call-only reply answers 200 with that one `function_call` item |

## Left out

- HTTP transport: `req.json()`, `fetch`, the request method and headers, `resp.json()`, `JSON.stringify` and the `NextResponse` wrappers are not modelled; the parsed request body is an input and the backend is a function parameter. A request body that is not JSON throws before the configuration check, outside the `try`, and is left to the framework.
- The HTTP status of the backend's reply is not a parameter, because the route never reads it.
- `console.error` logging in the `catch` is not modelled; it does not affect the answer.
- The thrown error value is discarded: the route answers the same text for every throw, so `Failure` carries nothing.
- JSON numbers are reals; only whether a number is zero matters to the route.
- Strings are `seq<char>`, whose elements are Unicode scalar values, while a JavaScript string is a sequence of UTF-16 code units; the route only copies strings and tests whether they are empty, which agrees in both views.
- Property reads on strings, numbers, booleans and arrays are modelled as `undefined` for every key; this is exact for the keys the route reads, none of which is a prototype property of those types.
- Js.FirstOpt — on a string it yields the first Unicode scalar value, whereas JavaScript's `?.[0]` yields the first UTF-16 code unit, a lone high surrogate when the first character lies outside the Basic Multilingual Plane; and strings holding a lone surrogate, which `JSON.parse` accepts from `"\ud800"`, cannot be represented at all. Neither changes an answer of the route: it only reads `?.message` of that value, which is `undefined` either way, and copies or tests for emptiness every other string.
- The realtime session route (`src/app/api/session/route.ts`) answers a constant 400 and has no logic; it is not part of this model.
- Interpretation of `content`, `tools`, `role` and `arguments` is not modelled: the route copies them without looking at them, and so does the model.

=== FILE: flatten.dfy ===
/** Request flattening: the caller's structured request body becomes the flat
    chat-completions body sent to the backend. Only the `input` items whose
    `type` is "message" survive, each reduced to its `role` and `content`;
    `model` and `tools` are copied and streaming is switched off.
 */
module Flattening {
  import opened Js

  /** `{role, content}`, both copied without inspection. */
  datatype FlatMessage = FlatMessage(role: Prop, content: Prop)

  /** The body of `POST {base}/chat/completions`, before `JSON.stringify`. */
  datatype BackendRequest = BackendRequest(
    model: Prop,
    messages: seq<FlatMessage>,
    tools: Prop,
    stream: bool)

  /** `item.type === 'message'` for an item that is not `null`. */
  predicate IsMessage(item: Json)
    ensures IsMessage(item) ==> item.Obj?
    ensures IsMessage(item) <==>
              item.Obj? && "type" in item.fields && item.fields["type"] == Str("message")
  {
    Field(item, "type") == Some(Str("message"))
  }

  /** `{ role: item.role, content: item.content }`. */
  function ToFlat(item: Json): (m: FlatMessage)
    ensures m.role.Some? <==> item.Obj? && "role" in item.fields
    ensures m.content.Some? <==> item.Obj? && "content" in item.fields
    ensures m.role.Some? ==> m.role.value == item.fields["role"]
    ensures m.content.Some? ==> m.content.value == item.fields["content"]
  {
    FlatMessage(Field(item, "role"), Field(item, "content"))
  }

  /** The positions of the message items of `items`, in increasing order: the
      reference against which the filter is stated. */
  function MessageIndices(items: seq<Json>): (idx: seq<nat>)
    ensures forall k :: 0 <= k < |idx| ==> idx[k] < |items|
    ensures forall j, k :: 0 <= j < k < |idx| ==> idx[j] < idx[k]
    ensures forall i :: 0 <= i < |items| ==> (IsMessage(items[i]) <==> i in idx)
  {
    if |items| == 0 then []
    else
      var n := |items| - 1;
      MessageIndices(items[..n]) + (if IsMessage(items[n]) then [n] else [])
  }

  /** `items.filter(item => item.type === 'message').map(…)`. The filter reads
      `type` of every item, so a single `null` item anywhere throws; the map
      cannot throw, since only objects pass the filter. */
  function Messages(items: seq<Json>): (r: Result<seq<FlatMessage>>)
    ensures r.Failure? <==> !NoNull(items)
    ensures r.Success? ==> |r.value| == |MessageIndices(items)|
    ensures r.Success? ==>
              forall k :: 0 <= k < |r.value| ==>
                r.value[k] == ToFlat(items[MessageIndices(items)[k]])
  {
    if |items| == 0 then Success([])
    else
      var n := |items| - 1;
      var init :- Messages(items[..n]);
      if items[n].Null? then Failure
      else Success(init + (if IsMessage(items[n]) then [ToFlat(items[n])] else []))
  }

  /** The request side of the route: `(body.input || [])` flattened, then the
      outgoing body `{model, messages, tools, stream: false}`. Reading
      `body.input` throws on a `null` body; a truthy `input` that is not an
      array throws at `.filter`. */
  function Flatten(body: Json): (r: Result<BackendRequest>)
    ensures r.Failure? <==>
              || body.Null?
              || ElementsOrEmpty(Field(body, "input")).Failure?
              || !NoNull(ElementsOrEmpty(Field(body, "input")).value)
    ensures r.Success? ==> !r.value.stream
    ensures r.Success? ==> r.value.model == Field(body, "model")
    ensures r.Success? ==> r.value.tools == Field(body, "tools")
    ensures !body.Null? && !Truthy(Field(body, "input")) ==> r.Success? && r.value.messages == []
  {
    var input :- Read(Some(body), "input");
    var items :- ElementsOrEmpty(input);
    var messages :- Messages(items);
    Success(BackendRequest(Field(body, "model"), messages, Field(body, "tools"), false))
  }

  /** Flattening an array `input` without `null` items succeeds, keeps exactly
      the message items in their original relative order, and copies each
      one's `role` and `content`; every other item is dropped. */
  lemma FlattenSelectsMessages(body: Json, items: seq<Json>)
    requires Field(body, "input") == Some(Arr(items))
    requires NoNull(items)
    ensures Flatten(body).Success?
    ensures var idx := MessageIndices(items);
            var msgs := Flatten(body).value.messages;
            && |msgs| == |idx|
            && (forall k :: 0 <= k < |msgs| ==>
                  msgs[k].role == Field(items[idx[k]], "role") &&
                  msgs[k].content == Field(items[idx[k]], "content"))
            && (forall i :: 0 <= i < |items| ==> (IsMessage(items[i]) <==> i in idx))
            && (forall j, k :: 0 <= j < k < |idx| ==> idx[j] < idx[k])
  {
  }

  /** A single non-`null` item flattens to itself when it is a message and to
      nothing otherwise. */
  lemma MessagesOne(item: Json)
    requires !item.Null?
    ensures Messages([item]).Success?
    ensures Messages([item]).value == if IsMessage(item) then [ToFlat(item)] else []
  {
    assert [item][..0] == [];
  }

  /** The number of message items of `items`. */
  function CountMessages(items: seq<Json>): (n: nat) {
    if |items| == 0 then 0
    else CountMessages(items[1..]) + (if IsMessage(items[0]) then 1 else 0)
  }

  /** The flattened messages are as many as the message items, counted front to
      back independently of the filter. */
  lemma {:induction false} MessagesCount(items: seq<Json>)
    requires NoNull(items)
    ensures Messages(items).Success?
    ensures |Messages(items).value| == CountMessages(items)
  {
    if |items| > 0 {
      MessagesCount(items[1..]);
      CountSplit(items);
    }
  }

  /** Counting from the front agrees with counting the prefix and then the last
      item. */
  lemma {:induction false} CountSplit(items: seq<Json>)
    requires |items| > 0
    ensures |MessageIndices(items)| ==
            |MessageIndices(items[1..])| + (if IsMessage(items[0]) then 1 else 0)
  {
    var n := |items| - 1;
    if n > 0 {
      assert items[1..][..n - 1] == items[..n][1..];
      CountSplit(items[..n]);
      assert items[1..][n - 1] == items[n];
    }
  }
}

=== FILE: js.dfy ===
/** The JavaScript values the adapter handles — everything `JSON.parse` can
    produce — and the few JavaScript operations it applies to them: reading a
    property, optional chaining (`?.`), indexing with `[0]`, and truthiness.

    Reading a property of `null` or `undefined` throws a TypeError; the route
    catches every throw, so a throw is modelled as `Failure` without a payload.
 */
module Js {

  /** A present or absent value; `None` stands for JavaScript's `undefined`. */
  datatype Option<+T> = None | Some(value: T)

  /** The outcome of evaluating an expression that may throw. */
  datatype Result<+T> = Success(value: T) | Failure {

    predicate IsFailure() {
      Failure?
    }

    function PropagateFailure<U>(): Result<U>
      requires Failure?
    {
      Failure
    }

    function Extract(): T
      requires Success?
    {
      value
    }
  }

  /** A value produced by `JSON.parse`. Numbers are reals: the adapter only ever
      asks whether one is zero. Duplicate object keys have already been
      resolved by the parser, so an object is a map. */
  datatype Json =
    | Null
    | Bool(b: bool)
    | Num(n: real)
    | Str(s: string)
    | Arr(elems: seq<Json>)
    | Obj(fields: map<string, Json>)

  /** A property as the program reads it: absent (`undefined`) or a value. */
  type Prop = Option<Json>

  /** `v === null || v === undefined`: the values that stop `?.` and make a
      property read throw. */
  predicate Nullish(v: Prop) {
    v.None? || v.value.Null?
  }

  /** JavaScript truthiness, as used by `||` and `if`: `undefined`, `null`,
      `false`, `0` and `""` are falsy; every array and object is truthy. */
  predicate Truthy(v: Prop)
    ensures Truthy(v) ==> !Nullish(v)
    ensures v.Some? && (v.value.Arr? || v.value.Obj?) ==> Truthy(v)
    ensures v.Some? && v.value.Str? ==> (Truthy(v) <==> v.value.s != "")
    ensures v.Some? && v.value.Bool? ==> (Truthy(v) <==> v.value.b)
    ensures v.Some? && v.value.Num? ==> (Truthy(v) <==> v.value.n != 0.0)
  {
    match v
    case None => false
    case Some(j) =>
      match j
      case Null => false
      case Bool(b) => b
      case Num(n) => n != 0.0
      case Str(s) => |s| > 0
      case Arr(_) => true
      case Obj(_) => true
  }

  /** `j.key` for a value `j` that is neither `null` nor `undefined`. Only an
      object has any of the keys the adapter reads; strings, numbers, booleans
      and arrays have none of them, not even through their prototypes. */
  function Field(j: Json, key: string): (r: Prop)
    ensures r.Some? ==> j.Obj? && key in j.fields && r.value == j.fields[key]
    ensures j.Obj? && key in j.fields ==> r.Some?
  {
    if j.Obj? && key in j.fields then Some(j.fields[key]) else None
  }

  /** `v.key`: throws when `v` is nullish. */
  function Read(v: Prop, key: string): (r: Result<Prop>)
    ensures r.Failure? <==> Nullish(v)
    ensures r.Success? ==> r.value == Field(v.value, key)
  {
    if Nullish(v) then Failure else Success(Field(v.value, key))
  }

  /** `v?.key`: `undefined` when `v` is nullish, never throws. */
  function ReadOpt(v: Prop, key: string): (r: Prop)
    ensures Nullish(v) ==> r.None?
    ensures !Nullish(v) ==> r == Field(v.value, key)
  {
    if Nullish(v) then None else Field(v.value, key)
  }

  /** `v?.[0]`: the first element of an array, the first character of a
      string, the property named "0" of an object, and `undefined` otherwise. */
  function FirstOpt(v: Prop): (r: Prop)
    ensures Nullish(v) ==> r.None?
    ensures v.Some? && v.value.Arr? ==>
              r == (if |v.value.elems| > 0 then Some(v.value.elems[0]) else None)
    ensures v.Some? && v.value.Str? ==>
              r == (if |v.value.s| > 0 then Some(Str([v.value.s[0]])) else None)
    ensures v.Some? && v.value.Obj? ==> r == Field(v.value, "0")
    ensures v.Some? && (v.value.Bool? || v.value.Num?) ==> r.None?
  {
    if Nullish(v) then None
    else
      match v.value
      case Arr(xs) => if |xs| > 0 then Some(xs[0]) else None
      case Str(s) => if |s| > 0 then Some(Str([s[0]])) else None
      case Obj(m) => if "0" in m then Some(m["0"]) else None
      case _ => None
  }

  /** `v || []` where the result is then iterated as an array (`.filter` or
      `for … of`): a falsy value gives no elements, an array gives its
      elements, and any other truthy value throws, because it either has no
      `filter` method or is not iterable, or (a non-empty string) yields
      characters whose properties cannot be read the way an element's are. */
  function ElementsOrEmpty(v: Prop): (r: Result<seq<Json>>)
    ensures !Truthy(v) ==> r == Success([])
    ensures v.Some? && v.value.Arr? ==> r == Success(v.value.elems)
    ensures r.Failure? <==> Truthy(v) && !v.value.Arr?
  {
    if !Truthy(v) then Success([])
    else if v.value.Arr? then Success(v.value.elems)
    else Failure
  }

  /** No element of `xs` is `null`. */
  predicate NoNull(xs: seq<Json>) {
    forall i :: 0 <= i < |xs| ==> !xs[i].Null?
  }
}

=== FILE: route.dfy ===
/** The `POST` handler of the responses route: the configuration gate, then
    the adapter that flattens the request, calls the chat-completions backend
    and un-flattens its reply, turning every throw into one generic error.

    The backend call (`fetch` followed by `resp.json()`) is a parameter: a
    function from the URL and the outgoing body to the parsed reply, or to a
    throw. The route never looks at the HTTP status of the reply.
 */
module Route {
  import opened Js
  import opened Flattening
  import opened Unflattening

  /** The error text when no backend base URL is configured. */
  const MisconfiguredError: string := "Server misconfigured: set OLLAMA_BASE_URL"

  /** The error text for every failure inside the adapter. */
  const FailedError: string := "failed"

  /** The path appended to the base URL for the backend call. */
  const ChatCompletionsPath: string := "/chat/completions"

  /** The JSON body of the route's answer. */
  datatype Body = ErrorBody(error: string) | OutputBody(output: seq<OutputItem>)

  /** The route's answer: HTTP status and JSON body. */
  datatype Response = Response(status: nat, body: Body)

  /** What awaiting `fetch(…)` and then `resp.json()` produced: the parsed
      reply, or a throw (network failure, a body that is not JSON). */
  datatype Reply = Parsed(data: Json) | Threw

  /** The chat-completions backend, as seen from the route. */
  type Backend = (string, BackendRequest) -> Reply

  function Misconfigured(): (r: Response) {
    Response(500, ErrorBody(MisconfiguredError))
  }

  function Failed(): (r: Response) {
    Response(500, ErrorBody(FailedError))
  }

  /** `!process.env.OLLAMA_BASE_URL` is false: the variable is set and, being
      a string, non-empty. */
  predicate Configured(baseUrl: Option<string>)
    ensures baseUrl.None? ==> !Configured(baseUrl)
    ensures baseUrl.Some? ==> (Configured(baseUrl) <==> Truthy(Some(Str(baseUrl.value))))
  {
    baseUrl.Some? && |baseUrl.value| > 0
  }

  /** `${base}/chat/completions`. */
  function Endpoint(base: string): (url: string)
    ensures |url| == |base| + |ChatCompletionsPath|
    ensures url[..|base|] == base && url[|base|..] == ChatCompletionsPath
  {
    base + ChatCompletionsPath
  }

  /** `ollamaResponse`: flatten the body, send it to the
      endpoint, un-flatten the reply. The backend is asked exactly once, with
      exactly the flattened body, and only if flattening succeeded; the answer
      is either the un-flattened output with status 200 or the generic
      `{error: 'failed'}` with status 500, never a partial output. */
  function OllamaResponse(base: string, body: Json, backend: Backend): (r: Response)
    ensures r.status == 200 || r == Failed()
    ensures r.status == 200 <==>
              && Flatten(body).Success?
              && backend(Endpoint(base), Flatten(body).value).Parsed?
              && Unflatten(backend(Endpoint(base), Flatten(body).value).data).Success?
    ensures r.status == 200 ==>
              r.body == OutputBody(Unflatten(backend(Endpoint(base), Flatten(body).value).data).value)
  {
    match Flatten(body)
    case Failure => Failed()
    case Success(request) =>
      match backend(Endpoint(base), request)
      case Threw => Failed()
      case Parsed(data) =>
        match Unflatten(data)
        case Failure => Failed()
        case Success(output) => Response(200, OutputBody(output))
  }

  /** `POST`: without a configured base URL the answer is the
      fixed configuration error, whatever the body and the backend; otherwise
      the adapter answers. */
  function Handle(baseUrl: Option<string>, body: Json, backend: Backend): (r: Response)
    ensures !Configured(baseUrl) ==> r == Misconfigured()
    ensures Configured(baseUrl) ==> r == OllamaResponse(baseUrl.value, body, backend)
    ensures r.status == 200 || r.status == 500
  {
    if !Configured(baseUrl) then Misconfigured()
    else OllamaResponse(baseUrl.value, body, backend)
  }

  /** The configuration gate does not depend on the request or the backend:
      two unconfigured calls answer alike, and an empty base URL counts as
      unconfigured. */
  lemma UnconfiguredIgnoresRequest(baseUrl: Option<string>, body1: Json, body2: Json,
                                   backend1: Backend, backend2: Backend)
    requires baseUrl.None? || baseUrl == Some("")
    ensures Handle(baseUrl, body1, backend1) == Handle(baseUrl, body2, backend2) == Misconfigured()
  {
  }

  /** When flattening throws, the backend is never consulted: any two backends
      give the same generic failure. */
  lemma FlattenFailureSkipsBackend(base: string, body: Json, backend1: Backend, backend2: Backend)
    requires Configured(Some(base))
    requires Flatten(body).Failure?
    ensures Handle(Some(base), body, backend1) == Handle(Some(base), body, backend2) == Failed()
  {
  }

  /** A configured route whose backend answers with `calls` and `content`
      hands the caller every call unchanged and in order, then the content
      exactly when it is truthy. */
  lemma HandleRoundTrip(base: string, body: Json, backend: Backend,
                        calls: seq<ToolCall>, content: Prop)
    requires Configured(Some(base))
    requires Flatten(body).Success?
    requires backend(Endpoint(base), Flatten(body).value) == Parsed(EncodeReply(calls, content))
    ensures Handle(Some(base), body, backend).status == 200
    ensures CallsOf(Handle(Some(base), body, backend).body.output) == calls
    ensures TextOf(Handle(Some(base), body, backend).body.output) ==
            (if Truthy(content) then content else None)
  {
    RoundTrip(calls, content);
  }

  /** A backend reply with a tool call lacking `function` makes the route
      answer the generic failure, discarding the other calls and the content. */
  lemma MalformedToolCallFails(base: string, body: Json, backend: Backend, k: nat)
    requires Configured(Some(base))
    requires Flatten(body).Success?
    requires backend(Endpoint(base), Flatten(body).value).Parsed?
    requires var data := backend(Endpoint(base), Flatten(body).value).data;
             && !data.Null?
             && ToolCalls(Choice(data).value).Success?
             && k < |ToolCalls(Choice(data).value).value|
             && Nullish(Field(ToolCalls(Choice(data).value).value[k], "function"))
    ensures Handle(Some(base), body, backend) == Failed()
  {
    MalformedCallFails(backend(Endpoint(base), Flatten(body).value).data, k);
  }

  // ---------------------------------------------------------------------
  // Worked examples: a user message "hi" for model "m".

  function ExampleBody(): Json {
    Obj(map["model" := Str("m"),
            "input" := Arr([Obj(map["type" := Str("message"), "role" := Str("user"), "content" := Str("hi")])])])
  }

  /** The example body flattens to one user message, model "m", no tools,
      streaming off. */
  lemma ExampleFlatten()
    ensures Flatten(ExampleBody()) ==
            Success(BackendRequest(Some(Str("m")), [FlatMessage(Some(Str("user")), Some(Str("hi")))], None, false))
  {
    var item := Obj(map["type" := Str("message"), "role" := Str("user"), "content" := Str("hi")]);
    var body := ExampleBody();
    assert "tools" != "model" by { assert "tools"[0] != "model"[0]; }
    assert "tools" != "input" by { assert "tools"[0] != "input"[0]; }
    assert Field(body, "input") == Some(Arr([item]));
    assert Field(body, "tools") == None;
    assert Field(body, "model") == Some(Str("m"));
    assert IsMessage(item);
    assert ToFlat(item) == FlatMessage(Some(Str("user")), Some(Str("hi")));
    MessagesOne(item);
  }

  /** `{choices: [{message: {content: "hello"}}]}`. */
  function ExampleTextData(): Json {
    Obj(map["choices" := Arr([Obj(map["message" := Obj(map["content" := Str("hello")])])])])
  }

  /** One call `{id: "1", function: {name: "f", arguments: "{}"}}`. */
  function ExampleCall(): Json {
    Obj(map["id" := Str("1"), "function" := Obj(map["name" := Str("f"), "arguments" := Str("{}")])])
  }

  /** `{choices: [{message: {tool_calls: [ExampleCall()]}}]}`. */
  function ExampleToolCallData(): Json {
    Obj(map["choices" := Arr([Obj(map["message" := Obj(map["tool_calls" := Arr([ExampleCall()])])])])])
  }

  /** A text-only backend reply becomes a single `message` item. */
  lemma ExampleTextReply(base: string)
    requires Configured(Some(base))
    ensures Handle(Some(base), ExampleBody(), (url, req) => Parsed(ExampleTextData())) ==
            Response(200, OutputBody([Message([OutputText(Str("hello"))])]))
  {
    ExampleFlatten();
    ExampleTextUnflatten();
  }

  lemma ExampleTextUnflatten()
    ensures Unflatten(ExampleTextData()) == Success([Message([OutputText(Str("hello"))])])
  {
    var data := ExampleTextData();
    var choice := Obj(map["content" := Str("hello")]);
    assert Choice(data) == Success(Some(choice));
    assert ToolCalls(Some(choice)) == Success([]);
    assert Content(Some(choice)) == Some(Str("hello"));
    assert Unflatten(data).value == [Message([OutputText(Str("hello"))])];
  }

  /** A tool-call-only backend reply becomes a single `function_call` item
      with the call's id, name and arguments string. */
  lemma ExampleToolCallReply(base: string)
    requires Configured(Some(base))
    ensures Handle(Some(base), ExampleBody(), (url, req) => Parsed(ExampleToolCallData())) ==
            Response(200, OutputBody([FunctionCall(Some(Str("1")), Some(Str("f")), Some(Str("{}")))]))
  {
    ExampleFlatten();
    ExampleToolCallUnflatten();
  }

  lemma ExampleToolCallUnflatten()
    ensures Unflatten(ExampleToolCallData()) ==
            Success([FunctionCall(Some(Str("1")), Some(Str("f")), Some(Str("{}")))])
  {
    var data := ExampleToolCallData();
    var choice := Obj(map["tool_calls" := Arr([ExampleCall()])]);
    var item := FunctionCall(Some(Str("1")), Some(Str("f")), Some(Str("{}")));
    assert Field(data, "choices") == Some(Arr([Obj(map["message" := choice])]));
    assert Choice(data) == Success(Some(choice));
    assert ToolCalls(Some(choice)) == Success([ExampleCall()]);
    assert Content(Some(choice)) == None;
    assert CallItem(ExampleCall()) == Success(item);
    assert Unflatten(data).value == [item];
  }
}

=== FILE: unflatten.dfy ===
/** Response un-flattening: the backend's `choices[0].message` becomes the
    caller's `output` items — one `function_call` per tool call, in the
    backend's order, then at most one `message` holding the text content.
 */
module Unflattening {
  import opened Js

  /** `{type: 'output_text', text}`. */
  datatype ContentBlock = OutputText(text: Json) {
    function Type(): string {
      "output_text"
    }
  }

  /** An element of the caller's `output` array. */
  datatype OutputItem =
    | FunctionCall(callId: Prop, name: Prop, arguments: Prop)
    | Message(content: seq<ContentBlock>)
  {
    function Type(): string {
      match this
      case FunctionCall(_, _, _) => "function_call"
      case Message(_) => "message"
    }
  }

  /** `data.choices?.[0]?.message`: the chain starts with a plain read, so only
      a `null` reply throws; a missing `choices`, first choice or `message`
      gives `undefined`. A first choice that is not an object, and a string,
      number or boolean `choices`, have no `message` either; an object
      `choices` is indexed by its property "0". */
  function Choice(data: Json): (r: Result<Prop>)
    ensures r.Failure? <==> data.Null?
    ensures !data.Null? && Nullish(Field(data, "choices")) ==> r == Success(None)
    ensures var cs := Field(data, "choices");
            cs.Some? && cs.value.Arr? ==>
              if |cs.value.elems| > 0 && cs.value.elems[0].Obj?
              then r == Success(Field(cs.value.elems[0], "message"))
              else r == Success(None)
    ensures var cs := Field(data, "choices");
            cs.Some? && cs.value.Obj? ==>
              r == Success(if "0" in cs.value.fields then ReadOpt(Some(cs.value.fields["0"]), "message") else None)
    ensures var cs := Field(data, "choices");
            cs.Some? && (cs.value.Str? || cs.value.Num? || cs.value.Bool?) ==> r == Success(None)
  {
    var choices :- Read(Some(data), "choices");
    Success(ReadOpt(FirstOpt(choices), "message"))
  }

  /** The array `for (const tc of choice?.tool_calls || [])` walks. */
  function ToolCalls(choice: Prop): (r: Result<seq<Json>>)
    ensures Nullish(choice) ==> r == Success([])
    ensures r.Failure? <==> Truthy(ReadOpt(choice, "tool_calls")) && !ReadOpt(choice, "tool_calls").value.Arr?
    ensures !Truthy(ReadOpt(choice, "tool_calls")) ==> r == Success([])
    ensures forall xs :: ReadOpt(choice, "tool_calls") == Some(Arr(xs)) ==> r == Success(xs)
  {
    ElementsOrEmpty(ReadOpt(choice, "tool_calls"))
  }

  /** `choice?.content`. */
  function Content(choice: Prop): (r: Prop)
    ensures Nullish(choice) ==> r.None?
    ensures r.Some? ==> choice.value.Obj? && "content" in choice.value.fields
    ensures r.Some? ==> r.value == choice.value.fields["content"]
    ensures !Nullish(choice) && choice.value.Obj? && "content" in choice.value.fields ==> r.Some?
  {
    ReadOpt(choice, "content")
  }

  /** The `function_call` item for one tool call. Reading `tc.id` throws on a
      `null` call, and reading `tc.function.name` throws when `function` is
      missing or `null`; the three fields are copied unchanged, so the
      `arguments` string reaches the caller exactly as the backend encoded it. */
  function CallItem(tc: Json): (r: Result<OutputItem>)
    ensures r.Failure? <==> tc.Null? || Nullish(Field(tc, "function"))
    ensures r.Success? ==> r.value.FunctionCall?
    ensures r.Success? ==> r.value.callId == Field(tc, "id")
    ensures r.Success? ==> r.value.name == Field(Field(tc, "function").value, "name")
    ensures r.Success? ==> r.value.arguments == Field(Field(tc, "function").value, "arguments")
  {
    if tc.Null? then Failure
    else
      var fn := Field(tc, "function");
      if Nullish(fn) then Failure
      else Success(FunctionCall(Field(tc, "id"), Field(fn.value, "name"), Field(fn.value, "arguments")))
  }

  /** The `for … of` loop over the tool calls: one item per tool call, pushed in the order
      the backend listed them. A single malformed call makes the whole loop
      throw, so no partial list ever escapes. */
  function CallItems(tcs: seq<Json>): (r: Result<seq<OutputItem>>)
    ensures r.Success? <==> forall i :: 0 <= i < |tcs| ==> CallItem(tcs[i]).Success?
    ensures r.Success? ==> |r.value| == |tcs|
    ensures r.Success? ==> forall i :: 0 <= i < |tcs| ==> r.value[i] == CallItem(tcs[i]).value
  {
    if |tcs| == 0 then Success([])
    else
      var n := |tcs| - 1;
      var init :- CallItems(tcs[..n]);
      var item :- CallItem(tcs[n]);
      Success(init + [item])
  }

  /** The `if (choice?.content)` branch: one `message` item with a single `output_text` block when
      the content is truthy, nothing otherwise. */
  function TextItem(content: Prop): (r: seq<OutputItem>)
    ensures |r| <= 1
    ensures |r| == 1 <==> Truthy(content)
    ensures |r| == 1 ==> r[0] == Message([OutputText(content.value)])
  {
    if Truthy(content) then [Message([OutputText(content.value)])] else []
  }

  /** The `output` array built from the parsed backend reply. */
  function Unflatten(data: Json): (r: Result<seq<OutputItem>>)
    ensures r.Failure? <==>
              || data.Null?
              || ToolCalls(Choice(data).value).Failure?
              || CallItems(ToolCalls(Choice(data).value).value).Failure?
    ensures r.Success? ==>
              var choice := Choice(data).value;
              var tcs := ToolCalls(choice).value;
              && |r.value| == |tcs| + (if Truthy(Content(choice)) then 1 else 0)
              && (forall i :: 0 <= i < |tcs| ==> r.value[i] == CallItem(tcs[i]).value)
              && (Truthy(Content(choice)) ==>
                    r.value[|tcs|] == Message([OutputText(Content(choice).value)]))
  {
    var choice :- Choice(data);
    var tcs :- ToolCalls(choice);
    var calls :- CallItems(tcs);
    Success(calls + TextItem(Content(choice)))
  }

  /** The order invariant of a successful output: every item but the last is a
      `function_call`, there is at most one `message`, it is last, it is
      there exactly when the content is truthy, and it holds exactly one
      `output_text` block carrying the content; the items carry the `type`
      tags "function_call", "message" and "output_text". */
  lemma UnflattenShape(data: Json)
    requires Unflatten(data).Success?
    ensures var out := Unflatten(data).value;
            var content := Content(Choice(data).value);
            && (forall i :: 0 <= i < |out| - 1 ==> out[i].FunctionCall? && out[i].Type() == "function_call")
            && (|out| > 0 && out[|out| - 1].Message? <==> Truthy(content))
            && (forall i :: 0 <= i < |out| && out[i].Message? ==>
                  && i == |out| - 1
                  && out[i].Type() == "message"
                  && out[i].content == [OutputText(content.value)]
                  && out[i].content[0].Type() == "output_text")
  {
    var choice := Choice(data).value;
    var tcs := ToolCalls(choice).value;
    var out := Unflatten(data).value;
    forall i | 0 <= i < |tcs|
      ensures out[i].FunctionCall?
    {
      assert out[i] == CallItem(tcs[i]).value;
    }
  }

  /** A successful output starts with one `function_call` per backend tool
      call, in the backend's order, whose `call_id`, `name` and `arguments` are
      the call's `id`, `function.name` and `function.arguments` unchanged. */
  lemma UnflattenCallsPassThrough(data: Json)
    requires Unflatten(data).Success?
    ensures var out := Unflatten(data).value;
            var tcs := ToolCalls(Choice(data).value).value;
            && |tcs| <= |out|
            && forall i :: 0 <= i < |tcs| ==>
                 && !Nullish(Field(tcs[i], "function"))
                 && out[i] == FunctionCall(Field(tcs[i], "id"),
                                           Field(Field(tcs[i], "function").value, "name"),
                                           Field(Field(tcs[i], "function").value, "arguments"))
  {
  }

  /** With no tool calls — `tool_calls` absent, falsy or an empty array — and
      no truthy content, in particular when the reply has no `choices`, an
      empty `choices`, or a first choice without `message`, the output is
      empty, and that is a success. */
  lemma UnflattenEmpty(data: Json)
    requires !data.Null?
    requires ToolCalls(Choice(data).value) == Success([])
    requires !Truthy(Content(Choice(data).value))
    ensures Unflatten(data) == Success([])
  {
  }

  /** A reply without any first choice message yields an empty output. */
  lemma UnflattenNoMessage(data: Json)
    requires !data.Null?
    requires Nullish(ReadOpt(FirstOpt(Field(data, "choices")), "message"))
    ensures Unflatten(data) == Success([])
  {
  }

  /** A tool call that is `null` or lacks `function` anywhere in the list makes
      the whole un-flattening fail, whatever the other calls and the content. */
  lemma MalformedCallFails(data: Json, k: nat)
    requires !data.Null?
    requires ToolCalls(Choice(data).value).Success?
    requires k < |ToolCalls(Choice(data).value).value|
    requires var tc := ToolCalls(Choice(data).value).value[k];
             tc.Null? || Nullish(Field(tc, "function"))
    ensures Unflatten(data).Failure?
  {
  }

  // ---------------------------------------------------------------------
  // A backend reply built from typed tool calls, and its recovery from the
  // output: the round trip that shows un-flattening loses nothing of the
  // calls and keeps truthy content.

  /** A tool call as the backend means it: `{id, function: {name, arguments}}`
      with each field possibly absent. */
  datatype ToolCall = ToolCall(id: Prop, name: Prop, arguments: Prop)

  /** `m` with `key` set when `v` is present, unchanged otherwise (what
      `JSON.stringify` does with an `undefined` field). */
  function Put(m: map<string, Json>, key: string, v: Prop): (r: map<string, Json>)
    ensures key in r <==> v.Some? || key in m
    ensures v.Some? ==> r[key] == v.value
    ensures forall k :: k in m && k != key ==> k in r && r[k] == m[k]
    ensures forall k :: k in r && k != key ==> k in m
  {
    if v.Some? then m[key := v.value] else m
  }

  /** The JSON the backend sends for one tool call. */
  function EncodeCall(c: ToolCall): (j: Json) {
    Obj(Put(map["function" := Obj(Put(Put(map[], "name", c.name), "arguments", c.arguments))], "id", c.id))
  }

  /** `{choices: [{message: {tool_calls, content}}]}`. */
  function EncodeReply(calls: seq<ToolCall>, content: Prop): (j: Json) {
    var toolCalls := Arr(seq(|calls|, i requires 0 <= i < |calls| => EncodeCall(calls[i])));
    Obj(map["choices" := Arr([Obj(map["message" := Obj(Put(map["tool_calls" := toolCalls], "content", content))])])])
  }

  /** The tool calls an output describes, in output order. */
  function CallsOf(out: seq<OutputItem>): (r: seq<ToolCall>)
    ensures |r| <= |out|
  {
    if |out| == 0 then []
    else
      var n := |out| - 1;
      CallsOf(out[..n]) +
        (match out[n]
         case FunctionCall(id, name, arguments) => [ToolCall(id, name, arguments)]
         case Message(_) => [])
  }

  /** The text an output carries: that of a final single-block `message`. */
  function TextOf(out: seq<OutputItem>): (r: Prop) {
    if |out| > 0 && out[|out| - 1].Message? && |out[|out| - 1].content| == 1
    then Some(out[|out| - 1].content[0].text)
    else None
  }

  /** Reading back the calls of an output made only of `function_call` items
      gives the calls they were made from. */
  lemma {:induction false} CallsOfCalls(out: seq<OutputItem>, calls: seq<ToolCall>)
    requires |out| == |calls|
    requires forall i :: 0 <= i < |out| ==>
               out[i] == FunctionCall(calls[i].id, calls[i].name, calls[i].arguments)
    ensures CallsOf(out) == calls
  {
    if |out| > 0 {
      var n := |out| - 1;
      CallsOfCalls(out[..n], calls[..n]);
      assert calls == calls[..n] + [calls[n]];
    }
  }

  /** The encoded reply's first choice message, read back. */
  lemma ChoiceOfEncoded(calls: seq<ToolCall>, content: Prop)
    ensures var choice := Choice(EncodeReply(calls, content));
            && choice.Success?
            && ToolCalls(choice.value) ==
                 Success(seq(|calls|, i requires 0 <= i < |calls| => EncodeCall(calls[i])))
            && Content(choice.value) == content
  {
  }

  /** An encoded tool call un-flattens to the `function_call` of its fields. */
  lemma CallItemOfEncoded(c: ToolCall)
    ensures CallItem(EncodeCall(c)) == Success(FunctionCall(c.id, c.name, c.arguments))
  {
  }

  /** The encoded tool calls un-flatten, position by position, to the
      `function_call` items of the calls they encode. */
  lemma EncodedCallItems(calls: seq<ToolCall>)
    ensures var r := CallItems(seq(|calls|, i requires 0 <= i < |calls| => EncodeCall(calls[i])));
            && r.Success?
            && |r.value| == |calls|
            && forall i :: 0 <= i < |calls| ==>
                 r.value[i] == FunctionCall(calls[i].id, calls[i].name, calls[i].arguments)
  {
    var tcs := seq(|calls|, i requires 0 <= i < |calls| => EncodeCall(calls[i]));
    forall i | 0 <= i < |tcs|
      ensures CallItem(tcs[i]) == Success(FunctionCall(calls[i].id, calls[i].name, calls[i].arguments))
    {
      CallItemOfEncoded(calls[i]);
    }
  }

  /** The encoded reply un-flattens to the calls' `function_call` items
      followed by the text item of the content. */
  lemma UnflattenEncoded(calls: seq<ToolCall>, content: Prop)
    ensures var tcs := seq(|calls|, i requires 0 <= i < |calls| => EncodeCall(calls[i]));
            && CallItems(tcs).Success?
            && Unflatten(EncodeReply(calls, content)) == Success(CallItems(tcs).value + TextItem(content))
  {
    ChoiceOfEncoded(calls, content);
    EncodedCallItems(calls);
  }

  /** Reading back an output made of the `function_call` items of `calls`
      followed by the text item of `content` gives `calls`, and the content
      exactly when it is truthy. */
  lemma ReadBack(items: seq<OutputItem>, calls: seq<ToolCall>, content: Prop)
    requires |items| == |calls|
    requires forall i :: 0 <= i < |items| ==>
               items[i] == FunctionCall(calls[i].id, calls[i].name, calls[i].arguments)
    ensures CallsOf(items + TextItem(content)) == calls
    ensures TextOf(items + TextItem(content)) == (if Truthy(content) then content else None)
  {
    var out := items + TextItem(content);
    CallsOfCalls(items, calls);
    if Truthy(content) {
      assert out[..|items|] == items;
    } else {
      assert out == items;
    }
  }

  /** Un-flattening a reply built from `calls` and `content` succeeds; reading
      the calls back out of the output gives `calls` unchanged, in order, and
      reading the text back gives the content exactly when it is truthy. */
  lemma {:induction false} RoundTrip(calls: seq<ToolCall>, content: Prop)
    ensures Unflatten(EncodeReply(calls, content)).Success?
    ensures CallsOf(Unflatten(EncodeReply(calls, content)).value) == calls
    ensures TextOf(Unflatten(EncodeReply(calls, content)).value) ==
            (if Truthy(content) then content else None)
  {
    UnflattenEncoded(calls, content);
    EncodedCallItems(calls);
    var tcs := seq(|calls|, i requires 0 <= i < |calls| => EncodeCall(calls[i]));
    ReadBack(CallItems(tcs).value, calls, content);
  }
}
